=== FILE: README.md ===
# UniFi Protect integration: session, device mirror and update coordinator

A Dafny model of two sequential pieces of the UniFi Protect home-automation
integration. Both sit under the host-platform glue.

1. The server wrapper `UpvServer` (`custom_components/unifiprotect/unifi_protect_server.py`):
   - the `request` helper's status mapping (`Transport`);
   - flavour detection, login and the lazy token-liveness check (`Session`);
   - the device mirror (`Mirror`). The bootstrap camera list is merged into
     it, motion events are applied to it, and successful infrared and
     recording-mode patches are written back.
2. The update coordinator `UnifiProtectData` (`custom_components/unifiprotect/data.py`), in `Coordinator`:
   - the per-device callback registry and the polling timer that should
     exist exactly while the registry is non-empty;
   - fan-out to callbacks in registration order;
   - the refresh outcome flag and the reaction to NotAuthorized;
   - idempotent stop;
   - lookup of devices by model type.

Every component is an immutable record with pure step functions. I/O is
replaced by parameters:
- The NVR's answers are `Exchange`/`Reply` values, or plain status codes for
  the direct fetches.
- The JWT decoder is an oracle `Token -> Verdict` (valid, expired or
  malformed) that the caller supplies with the current time baked in.
- The timer and the websocket are opaque `Handle`s supplied by the
  environment. Callbacks are opaque `Callback` identities.
- A coordinator step returns the effects it performed, in order: handles
  created or called, callbacks run, log lines, the reauthentication request.
- A step also returns the Python exception it raised, if any. The state
  mutations the source performs before raising are kept.

Files: `types.dfy` (Option, Result, Outcome, Error), `transport.dfy`,
`session.dfy`, `mirror.dfy`, `coordinator.dfy`.

### Behaviour worth knowing
- A modern-flavour login whose reply sets no TOKEN cookie leaves
  `is_authenticated()` false, so every later `ensureAuthenticated` logs in
  again (`Session.ModernLoginWithoutTokenCookie`).
- A `ClientError` raised by the HTTP client inside `request` becomes
  NvrError.
- Flavour detection is cached only after a 200 answer. Any other answer that
  `request` lets through, such as a redirect, leaves the flavour undetected,
  and the next login probes again.
- "The registry is non-empty iff a timer is active" does not survive
  `async_stop`. See Findings.
- The legacy login header is `"Bearer "` plus the reply's Authorization
  header. A missing header gives the literal text `"Bearer None"`.
- `event["start"]` and `event["end"]` are checked for truthiness, so a zero
  timestamp counts as absent. A null `lastMotion` is checked with `is None`.

## Model

| member | source | states |
|---|---|---|
| Transport.Request | custom_components/unifiprotect/unifi_protect_server.py:411-438 | 401/403 give NotAuthorized; 404 and a ClientError of the HTTP client give NvrError; every other answer, whatever its status, is returned unchanged |
| Session.CheckUnifiOs | custom_components/unifiprotect/unifi_protect_server.py:76-88 | With the flavour already known it issues nothing and changes nothing. Otherwise it probes once. A 200 answer with x-csrf-token selects the modern flavour, API path "proxy/protect/api" and the CSRF header. A 200 answer without the header selects legacy. Other answers leave the flavour unknown. request exceptions propagate |
| Session.CheckRepeatedlyAfterDetection | custom_components/unifiprotect/unifi_protect_server.py:76-78 | once the flavour is known, any number of further checks issue no probe and leave the session unchanged |
| Session.ProbesAtMostOnce | custom_components/unifiprotect/unifi_protect_server.py:76-88 | if the first probe answers 200, a whole run of checks issues exactly one probe |
| Session.Authenticate | custom_components/unifiprotect/unifi_protect_server.py:94-116 | Detects the flavour first; if that fails, no credentials are sent. Posts to "/api/auth/login" on the modern flavour (cookie jar cleared first) and to "/api/auth" on legacy. On the modern flavour the stored TOKEN cookie is whatever the login reply set, or none, whether or not the post succeeds. On success the session is authenticated and its headers are the reply's CSRF token (modern) or "Bearer " plus the Authorization header (legacy). On failure the authenticated flag and the headers are unchanged |
| Session.IsAuthenticated | custom_components/unifiprotect/unifi_protect_server.py:118-137 | true only if authenticated. On the modern flavour it is false when the TOKEN cookie is missing, expired or undecodable, and true when it decodes as valid. On other flavours it is the stored flag |
| Session.EnsureAuthenticated | custom_components/unifiprotect/unifi_protect_server.py:90-92 | issues no request exactly when the session is live, and is exactly `authenticate` otherwise |
| Session.ModernLoginWithoutTokenCookie | custom_components/unifiprotect/unifi_protect_server.py:94-124 | a modern-flavour login with no TOKEN cookie succeeds, yet the session is not live afterwards and the next ensure logs in again |
| Session.LegacySessionStaysAuthenticated | custom_components/unifiprotect/unifi_protect_server.py:118-137 | a logged-in legacy session stays live whatever the decoder says, and ensure issues nothing |
| Session.StaleTokenLogsInAgain | custom_components/unifiprotect/unifi_protect_server.py:90-124 | an expired or malformed TOKEN on a known modern session triggers exactly one modern login (no probe), which stores the reply's cookie |
| Mirror.RtspUrl | custom_components/unifiprotect/unifi_protect_server.py:197-208 | None iff no channel has RTSP enabled; otherwise "rtsp://" + host + ":7447/" + the alias of the FIRST enabled channel |
| Mirror.UpSinceOf | custom_components/unifiprotect/unifi_protect_server.py:188-194 | up-since is "Offline" exactly when upSince is null |
| Mirror.NewCamera | custom_components/unifiprotect/unifi_protect_server.py:196-226 | A new camera's record is online iff its state is exactly "CONNECTED". Up-since is Offline iff it is null. The motion fields are at rest: no start, score 0, no thumbnail, motion off. Name, type and the RTSP URL come from the entry |
| Mirror.MergeCamera | custom_components/unifiprotect/unifi_protect_server.py:169-233 | One loop iteration. A new id gets the full record. A known id gets only last_motion, online, up_since, recording_mode and ir_mode rewritten, with name, type, rtsp and the motion fields unchanged. Other ids are untouched |
| Mirror.MergeBootstrap | custom_components/unifiprotect/unifi_protect_server.py:169-233 | the mirror's ids after a load are the old ids plus every listed id |
| Mirror.BootstrapKeepsKnownCamera | custom_components/unifiprotect/unifi_protect_server.py:227-233 | however many entries name it, a known camera keeps its name, type, RTSP URL and all motion fields |
| Mirror.BootstrapLeavesUnlisted | custom_components/unifiprotect/unifi_protect_server.py:169-233 | a camera the list does not mention is left exactly as it was |
| Mirror.BootstrapInsertsNewCamera | custom_components/unifiprotect/unifi_protect_server.py:196-226 | a new id gets name, type and RTSP URL from its first entry, and motion fields at rest even if later entries repeat it |
| Mirror.BootstrapReflectsLastEntry | custom_components/unifiprotect/unifi_protect_server.py:169-194 | after a load, the five bootstrap fields of each listed camera are those of its last entry in the list |
| Mirror.LoadBootstrap | custom_components/unifiprotect/unifi_protect_server.py:161-237 | a non-200 reply raises NvrError; a 200 reply merges the list, adds exactly the listed ids, and keeps every known camera's kept fields |
| Mirror.ApplyMotion | custom_components/unifiprotect/unifi_protect_server.py:260-284 | An event with an end timestamp sets motion off whatever its score. An open event sets it on iff score >= minimum score. Start and score are always overwritten. The thumbnail changes only when the event carries one. No bootstrap field changes |
| Mirror.ApplyMotionEvents | custom_components/unifiprotect/unifi_protect_server.py:258-284 | the event loop keeps the mirror's ids and every bootstrap field, and reports an unknown camera iff some event names a camera the mirror lacks |
| Mirror.EventsStopAtFirstUnknown | custom_components/unifiprotect/unifi_protect_server.py:275-278 | the loop stops at the first event naming an unknown camera, with exactly the earlier events applied |
| Mirror.EventsLeaveUnnamedCamera | custom_components/unifiprotect/unifi_protect_server.py:260-284 | a camera no event names keeps its record unchanged |
| Mirror.EventsLastWins | custom_components/unifiprotect/unifi_protect_server.py:260-278 | a camera's motion start, score and on-flag are those of the last event naming it |
| Mirror.EventsKeepThumbnail | custom_components/unifiprotect/unifi_protect_server.py:279-284 | events without a thumbnail never clear the stored one |
| Mirror.EventsLastThumbnailWins | custom_components/unifiprotect/unifi_protect_server.py:279-284 | the stored thumbnail is the one from the last event, naming that camera, that carries one |
| Mirror.LoadMotionEvents | custom_components/unifiprotect/unifi_protect_server.py:244-288 | A non-200 reply raises NvrError and leaves the mirror alone. A 200 reply passes iff every event names a known camera. Otherwise it raises the lookup failure for an unknown camera, with the earlier events applied |
| Mirror.Update | custom_components/unifiprotect/unifi_protect_server.py:69-74 | A failed list fetch raises NvrError and skips the event fetch. Otherwise every listed camera ends with the bootstrap fields of its last entry, because events never touch them |
| Mirror.MotionScenario | custom_components/unifiprotect/unifi_protect_server.py:169-278 | camera "c1" listed with recording mode "motion", then an open event with score 60 against minimum 50: motion on, score 60, recording mode still "motion" |
| Mirror.NormaliseIrMode | custom_components/unifiprotect/unifi_protect_server.py:389-394 | "led_off" becomes "autoFilterOnly", "always_on" becomes "on", "always_off" becomes "off", and every other mode passes through |
| Mirror.NormaliseIrModeIdempotent | custom_components/unifiprotect/unifi_protect_server.py:389-394 | normalising a normalised mode changes nothing |
| Mirror.SetCameraIr | custom_components/unifiprotect/unifi_protect_server.py:389-409 | The patch carries the normalised mode and LED level 255. A non-200 reply raises NvrError. An unknown id raises the lookup failure. Success changes only that camera's ir_mode, to the mode the patch carried |
| Mirror.SetCameraRecording | custom_components/unifiprotect/unifi_protect_server.py:360-380 | The patch carries the mode as given, 2 s pre- and post-padding, minimum motion trigger 1000 and no PIR timelapse. A non-200 reply raises NvrError. An unknown id raises the lookup failure. Success changes only that camera's recording_mode, to the mode sent |
| Coordinator.InitialIsValid | custom_components/unifiprotect/data.py:36-40 | a new coordinator satisfies the registry invariant and starts with last_update_success false |
| Coordinator.Subscribe | custom_components/unifiprotect/data.py:94-105 | Appends the callback at the end of the device's list; other devices are unchanged. Starts the timer iff the registry was empty, so never a second one. Preserves the registry invariant and returns the (device, callback) pair to remove |
| Coordinator.FirstIndex | custom_components/unifiprotect/data.py:110 | the position of the first occurrence, with no occurrence before it |
| Coordinator.RemoveFirst | custom_components/unifiprotect/data.py:110 | list.remove drops one occurrence (the first), keeps the order of the rest, and shrinks the multiset by exactly that callback |
| Coordinator.Detach | custom_components/unifiprotect/data.py:110-112 | the device key is deleted exactly when its list becomes empty, so no key maps to an empty list; other devices are unchanged |
| Coordinator.UnsubscribeAsWritten | custom_components/unifiprotect/data.py:107-115 | A missing device raises KeyError; a missing callback raises ValueError. Otherwise the registration is removed. When the registry becomes empty the interval handle is called once and reset to None. If it is already None, the call raises after the removal, with no effect. The websocket handle and the success flag are never touched |
| Coordinator.Unsubscribe | custom_components/unifiprotect/data.py:107-115 | The same removal and errors, with the handle call guarded by its presence. Never calls None, preserves the registry invariant, and equals the as-written operation whenever the invariant holds |
| Coordinator.SubscribeThenUnsubscribe | custom_components/unifiprotect/data.py:100-115 | The returned handle, which calls the unsubscribe as written, undoes exactly its subscription and restores the state, also from the states `async_stop` leaves behind. The only effects are the timer started and the same timer cancelled, and only when the registry was empty |
| Coordinator.SubscribeThenUnsubscribeDuplicate | custom_components/unifiprotect/data.py:100-112 | re-subscribing an already registered callback and unsubscribing restores the device's callbacks as a multiset, not necessarily their order |
| Coordinator.Signal | custom_components/unifiprotect/data.py:117-124 | runs nothing for a device without callbacks, otherwise each registered callback once, in registration order |
| Coordinator.Stop | custom_components/unifiprotect/data.py:61-69 | Calls the websocket handle and then the interval handle, each only if present, then disconnects, and does nothing else. Both handles end as None and the registry is untouched |
| Coordinator.StopIdempotent | custom_components/unifiprotect/data.py:61-69 | over any number of stops each handle is invoked at most once (only by the first call), and both end as None |
| Coordinator.Refresh | custom_components/unifiprotect/data.py:71-84 | Success sets the flag true. NvrError sets it false and logs only if it was true. NotAuthorized runs stop, logs, starts reauth and leaves the flag false. Any other exception propagates with nothing changed |
| Coordinator.Setup | custom_components/unifiprotect/data.py:54-59 | Subscribes to the websocket first, then refreshes, and the registry is untouched. The interval handle changes only through the stop of the NotAuthorized branch. Success returns normally with only the socket subscribed and the flag set true. NvrError leaves the socket subscribed and the flag false, and logs only after an earlier success. NotAuthorized runs the stop (cancelling that same subscription), then logs and requests reauth, and returns normally. Any other exception propagates with the socket still subscribed and nothing else done |
| Coordinator.OutageLogsOnce | custom_components/unifiprotect/data.py:76-79 | after a success, any number of NvrError refreshes log exactly once and leave the flag false |
| Coordinator.SilentOutage | custom_components/unifiprotect/data.py:76-79 | without a preceding success, NvrError refreshes log nothing |
| Coordinator.StopBreaksTimerInvariant | custom_components/unifiprotect/data.py:61-68 | stopping with subscribers left breaks "timer exists iff registry non-empty" |
| Coordinator.SubscribeAfterStopStartsNoTimer | custom_components/unifiprotect/data.py:96-99 | after stop, a new subscription does not restart polling |
| Coordinator.StopThenLastUnsubscribeCallsNone | custom_components/unifiprotect/data.py:113-115 | as written: registry {d: [cb]} with a live timer, then stop, then unsubscribe (d, cb) calls None |
| Coordinator.StopThenLastUnsubscribeIsClean | custom_components/unifiprotect/data.py:113-115 | guarded: the same sequence raises nothing, invokes no handle, and ends in a valid empty state |
| Coordinator.GetByTypes | custom_components/unifiprotect/data.py:42-52 | Yields every device of every requested type: each type's bootstrap collection (type name + "s") in the order given. If a collection is missing it stops at the first such type, having yielded the earlier types' devices |
| Coordinator.FlattenMembership | custom_components/unifiprotect/data.py:47-52 | a device is yielded iff it is in the collection of one of the requested types |
| Coordinator.FlattenAppend | custom_components/unifiprotect/data.py:49-52 | requesting types a then b yields a's devices followed by b's |

## Left out
- Network I/O: aiohttp sessions, URLs, TLS verification, request bodies on
  the wire and the base-URL filtering of cookies. An answer is an abstract
  status/header/cookie value. Only the TOKEN cookie of the jar is modelled.
- Client-level failures of the direct fetches (bootstrap, event log,
  patches). These bypass `request` and raise the HTTP library's own
  exception. Only their status codes are modelled.
- Malformed payloads (missing JSON keys, a non-numeric score). The raw
  records are typed, so a missing key cannot be expressed.
- JWT decoding is a library call that reads the clock. It is the `decode`
  oracle parameter.
- Epoch-millisecond to local-time formatting and the `datetime.now()`
  look-back window of the event query. They depend on the host clock and
  time zone. A `Stamp` keeps the raw epoch milliseconds, so it tells apart
  two timestamps within the same second that the source's rendering (to the
  second) would store as equal.
- Thumbnail, snapshot and access-key retrieval, and the floating-point
  thumbnail height (unifi_protect_server.py lines 139-154 and 290-351). They
  are network calls plus floating point.
- `Mirror.Update`: it composes the two fetches on the mirror only. The
  `ensureAuthenticated` preamble of each fetch is modelled separately as
  `Session.EnsureAuthenticated` and is not threaded through it.
- `Mirror.LoadBootstrap`: starts after the `ensureAuthenticated` preamble
  (line 159); a login failure there raises before the fetch, which the model
  does not show.
- `Mirror.LoadMotionEvents`: starts after the `ensureAuthenticated` preamble
  (line 242), for the same reason.
- `Mirror.SetCameraIr`: starts after the `ensureAuthenticated` preamble
  (line 387), for the same reason.
- `Mirror.SetCameraRecording`: starts after the `ensureAuthenticated`
  preamble (line 358), for the same reason.
- `Transport.Request`: only `ClientError` is translated. Any other exception
  of the call, such as `asyncio.TimeoutError` for an overall request
  timeout, propagates unchanged and is not modelled.
- `Coordinator.Signal`: assumes every callback returns normally. In the
  source a raising callback ends the fan-out and skips later subscribers.
- `Coordinator.Stop`: assumes both unsubscribe handles and
  `async_disconnect_ws` return normally. In the source a raising websocket
  handle leaves the interval timer uncancelled and both handles set.
- `Coordinator.Refresh`: assumes `async_stop` and `async_start_reauth`
  return normally on the NotAuthorized branch.
- `Coordinator.Setup`: assumes `subscribe_websocket` returns normally.
- The websocket subscription and `async_track_time_interval` are `Handle`
  values. Timer firing and scheduling are not modelled.
- The `force` flag of `async_refresh`: it is passed to the client library,
  which is not part of this model.
- `_async_process_updates` has an empty body. A successful refresh
  therefore changes only the flag and signals nobody.
- Concurrency and re-entrancy: overlapping refreshes, and callbacks that
  subscribe or unsubscribe while being signalled. The source has no guard,
  and the model runs one step at a time.
- `NotAuthorized` and `NvrError` of the coordinator's client library are
  taken as distinct exception classes. They are distinct in
  unifi_protect_server.py; the library itself is not part of this model.
- Logging beyond the two exception log lines of `async_refresh`, and the
  host's reauthentication flow beyond recording that it was requested.
- sensor.py, number.py and __init__.py are entity descriptions, UI tables and
  config-entry glue, with no logic of the core.

## Findings

| source | as written | input that shows it | evidently intended | confidence | as-written member | corrected member |
|---|---|---|---|---|---|---|
| custom_components/unifiprotect/data.py:61-69,107-115 | `async_stop` clears `_unsub_interval` but keeps `_subscriptions`. The unsubscribe that later empties the registry calls `self._unsub_interval()` while it is None | registry {"c1": [cb]} with a live timer; `async_stop()` (for example after NotAuthorized in a refresh, or at shutdown); then `async_unsubscribe_device_id("c1", cb)` raises TypeError | call and clear the interval handle only when it is present, as `async_stop` already does | medium, not executed | Coordinator.UnsubscribeAsWritten (shown by Coordinator.StopThenLastUnsubscribeCallsNone) | Coordinator.Unsubscribe (Coordinator.StopThenLastUnsubscribeIsClean; never calls None, preserves the invariant, equals the as-written operation under it) |

A related limitation is proved, not corrected: after `async_stop` a new
subscription does not restart polling, because the registry is still
non-empty (`Coordinator.SubscribeAfterStopStartsNoTimer`). Stop is meant to
end polling, so this is left as the source has it.

=== FILE: coordinator.dfy ===
/** The update coordinator (UnifiProtectData): a registry of per-device
    callbacks, a polling timer that should live exactly while the registry is
    non-empty, the refresh outcome flag, and shutdown.

    The coordinator is an immutable state record; each operation returns the
    new state, the side effects it performed in order (timer and websocket
    handles created or invoked, callbacks run, log lines, the reauth request),
    and the Python exception it raised, if any. Handles and callbacks are
    opaque identities. */
module Coordinator {
  import opened Types

  type DeviceId = string

  /** A subscriber's update callback, compared by identity. */
  datatype Callback = Callback(tag: nat)

  /** An unsubscribe handle returned by the timer or the websocket. */
  datatype Handle = Handle(tag: nat)

  datatype Effect =
    | TimerStarted(timer: Handle)
    | TimerCancelled(timer: Handle)
    | WebsocketSubscribed(socket: Handle)
    | WebsocketCancelled(socket: Handle)
    | WebsocketDisconnected
    | Notified(device: DeviceId, callback: Callback)
    | ErrorLogged
    | ReauthStarted

  /** The Python exceptions the coordinator's own code can raise: a missing
      registry key, a callback missing from its list, calling a handle that is
      None, and an update failure it does not catch. */
  datatype Fault =
    | NoSuchDevice(device: DeviceId)
    | NoSuchCallback(callback: Callback)
    | NoneCalled
    | UpdateRaised

  type Registry = map<DeviceId, seq<Callback>>

  datatype State = State(
    subscriptions: Registry,
    unsubInterval: Option<Handle>,
    unsubWebsocket: Option<Handle>,
    lastUpdateSuccess: bool)

  datatype Step = Step(state: State, effects: seq<Effect>, fault: Option<Fault>)

  /** A freshly constructed coordinator: no subscribers, no timer, no
      websocket, and the last update not (yet) a success. */
  const Initial := State(map[], None, None, false)

  /** No device id maps to an empty callback list. */
  ghost predicate NoEmptyLists(reg: Registry) {
    forall id :: id in reg ==> reg[id] != []
  }

  /** The registry invariant: no empty lists, and a polling timer exists
      exactly while some callback is registered. */
  ghost predicate Valid(s: State) {
    NoEmptyLists(s.subscriptions) && (s.subscriptions == map[] <==> s.unsubInterval.None?)
  }

  lemma InitialIsValid()
    ensures Valid(Initial) && !Initial.lastUpdateSuccess
  {
  }

  /** The callbacks registered for a device, in registration order. */
  function Listeners(reg: Registry, device: DeviceId): seq<Callback> {
    if device in reg then reg[device] else []
  }

  // ---------------------------------------------------------------------
  // Subscribe / unsubscribe
  // ---------------------------------------------------------------------

  /** What subscribing returns: the pair its unsubscribe closure removes. */
  datatype Unsubscriber = Unsubscriber(device: DeviceId, callback: Callback)

  datatype Subscribed = Subscribed(step: Step, unsubscribe: Unsubscriber)

  /** Registers a callback for a device, at the end of its list. Subscribing
      into an empty registry starts the polling timer (whose handle the
      scheduler supplies as `timer`); subscribing into a non-empty one starts
      nothing. */
  function Subscribe(s: State, device: DeviceId, callback: Callback, timer: Handle): (r: Subscribed)
    ensures r.unsubscribe == Unsubscriber(device, callback)
    ensures r.step.fault.None?
    ensures r.step.state.subscriptions.Keys == s.subscriptions.Keys + {device}
    ensures r.step.state.subscriptions[device] == Listeners(s.subscriptions, device) + [callback]
    ensures forall other :: other in s.subscriptions && other != device ==>
              r.step.state.subscriptions[other] == s.subscriptions[other]
    ensures s.subscriptions == map[] ==>
              r.step.effects == [TimerStarted(timer)] && r.step.state.unsubInterval == Some(timer)
    ensures s.subscriptions != map[] ==>
              r.step.effects == [] && r.step.state.unsubInterval == s.unsubInterval
    ensures r.step.state.unsubWebsocket == s.unsubWebsocket
    ensures r.step.state.lastUpdateSuccess == s.lastUpdateSuccess
    ensures Valid(s) ==> Valid(r.step.state)
  {
    var started := s.subscriptions == map[];
    var interval := if started then Some(timer) else s.unsubInterval;
    var effects := if started then [TimerStarted(timer)] else [];
    var reg := s.subscriptions[device := Listeners(s.subscriptions, device) + [callback]];
    Subscribed(Step(s.(subscriptions := reg, unsubInterval := interval), effects, None),
               Unsubscriber(device, callback))
  }

  /** The index of the first occurrence of `x` in `xs`. */
  function FirstIndex(xs: seq<Callback>, x: Callback): (i: nat)
    requires x in xs
    ensures i < |xs| && xs[i] == x && x !in xs[..i]
    decreases |xs|
  {
    if xs[0] == x then 0
    else
      var i := FirstIndex(xs[1..], x) + 1;
      assert xs[..i] == [xs[0]] + xs[1..][..i - 1];
      i
  }

  /** Python's list.remove: drops the first occurrence only, keeping the
      order of everything else. */
  function RemoveFirst(xs: seq<Callback>, x: Callback): (r: seq<Callback>)
    requires x in xs
    ensures |r| == |xs| - 1
    ensures multiset(r) == multiset(xs) - multiset{x}
    ensures forall j :: 0 <= j < |r| ==> r[j] == (if j < FirstIndex(xs, x) then xs[j] else xs[j + 1])
  {
    var i := FirstIndex(xs, x);
    assert xs == xs[..i] + [x] + xs[i + 1..];
    assert multiset(xs) == multiset(xs[..i]) + multiset{x} + multiset(xs[i + 1..]);
    xs[..i] + xs[i + 1..]
  }

  /** The registry after removing one registration of `callback` for
      `device`: the key goes away when its list becomes empty. */
  function Detach(reg: Registry, device: DeviceId, callback: Callback): (r: Registry)
    requires device in reg && callback in reg[device]
    ensures NoEmptyLists(reg) ==> NoEmptyLists(r)
    ensures device in r <==> |reg[device]| > 1
    ensures device in r ==> r[device] == RemoveFirst(reg[device], callback)
    ensures r.Keys <= reg.Keys
    ensures forall other :: other in reg && other != device ==> other in r && r[other] == reg[other]
  {
    var rest := RemoveFirst(reg[device], callback);
    if rest == [] then reg - {device} else reg[device := rest]
  }

  /** Unsubscribing exactly as the source does it: a missing device id or
      callback raises; otherwise the registration is removed, and when that
      empties the whole registry the interval handle is called and cleared.
      If the handle is already None (after `Stop`), calling it raises, with
      the removal already done. */
  function UnsubscribeAsWritten(s: State, device: DeviceId, callback: Callback): (r: Step)
    ensures device !in s.subscriptions ==> r == Step(s, [], Some(NoSuchDevice(device)))
    ensures device in s.subscriptions && callback !in s.subscriptions[device] ==>
              r == Step(s, [], Some(NoSuchCallback(callback)))
    ensures device in s.subscriptions && callback in s.subscriptions[device] ==>
              && r.state.subscriptions == Detach(s.subscriptions, device, callback)
              && (r.state.subscriptions == map[] && s.unsubInterval.None? ==> r.fault == Some(NoneCalled))
              && (r.state.subscriptions == map[] && s.unsubInterval.Some? ==>
                    r.fault.None? && r.effects == [TimerCancelled(s.unsubInterval.value)]
                    && r.state.unsubInterval.None?)
              && (r.state.subscriptions != map[] ==>
                    r.fault.None? && r.effects == [] && r.state.unsubInterval == s.unsubInterval)
    ensures r.fault == Some(NoneCalled) ==> r.effects == [] && r.state.unsubInterval.None?
    ensures r.state.unsubWebsocket == s.unsubWebsocket && r.state.lastUpdateSuccess == s.lastUpdateSuccess
  {
    if device !in s.subscriptions then Step(s, [], Some(NoSuchDevice(device)))
    else if callback !in s.subscriptions[device] then Step(s, [], Some(NoSuchCallback(callback)))
    else
      var removed := s.(subscriptions := Detach(s.subscriptions, device, callback));
      if removed.subscriptions != map[] then Step(removed, [], None)
      else
        match s.unsubInterval
        case None => Step(removed, [], Some(NoneCalled))
        case Some(h) => Step(removed.(unsubInterval := None), [TimerCancelled(h)], None)
  }

  /** Unsubscribing with the handle call guarded by its presence, as `Stop`
      already guards it. Identical to the source whenever the registry
      invariant holds; after `Stop` it no longer calls a None handle. */
  function Unsubscribe(s: State, device: DeviceId, callback: Callback): (r: Step)
    ensures device !in s.subscriptions ==> r == Step(s, [], Some(NoSuchDevice(device)))
    ensures device in s.subscriptions && callback !in s.subscriptions[device] ==>
              r == Step(s, [], Some(NoSuchCallback(callback)))
    ensures device in s.subscriptions && callback in s.subscriptions[device] ==>
              && r.fault.None?
              && r.state.subscriptions == Detach(s.subscriptions, device, callback)
              && (r.state.subscriptions == map[] ==>
                    r.state.unsubInterval.None?
                    && r.effects == (if s.unsubInterval.Some? then [TimerCancelled(s.unsubInterval.value)] else []))
              && (r.state.subscriptions != map[] ==>
                    r.effects == [] && r.state.unsubInterval == s.unsubInterval)
    ensures r.fault != Some(NoneCalled)
    ensures r.state.unsubWebsocket == s.unsubWebsocket
    ensures r.state.lastUpdateSuccess == s.lastUpdateSuccess
    ensures Valid(s) ==> Valid(r.state)
    ensures Valid(s) ==> r == UnsubscribeAsWritten(s, device, callback)
  {
    if device !in s.subscriptions then Step(s, [], Some(NoSuchDevice(device)))
    else if callback !in s.subscriptions[device] then Step(s, [], Some(NoSuchCallback(callback)))
    else
      var removed := s.(subscriptions := Detach(s.subscriptions, device, callback));
      if removed.subscriptions != map[] then Step(removed, [], None)
      else
        match s.unsubInterval
        case None => Step(removed, [], None)
        case Some(h) => Step(removed.(unsubInterval := None), [TimerCancelled(h)], None)
  }

  /** The handle returned by subscribing undoes exactly that subscription:
      from any state without empty lists whose timer is off when the registry
      is empty (valid states, and also those left by `Stop`), in which the
      callback was not yet registered for the device, subscribing and then
      unsubscribing restores the state, and the timer it started (if any) is
      the one it cancels. */
  lemma SubscribeThenUnsubscribe(s: State, device: DeviceId, callback: Callback, timer: Handle)
    requires NoEmptyLists(s.subscriptions) && (s.subscriptions == map[] ==> s.unsubInterval.None?)
    requires callback !in Listeners(s.subscriptions, device)
    ensures var sub := Subscribe(s, device, callback, timer);
            var un := UnsubscribeAsWritten(sub.step.state, sub.unsubscribe.device, sub.unsubscribe.callback);
            && un.state == s
            && un.fault.None?
            && sub.step.effects + un.effects
               == (if s.subscriptions == map[] then [TimerStarted(timer), TimerCancelled(timer)] else [])
  {
    var t := Subscribe(s, device, callback, timer).step.state;
    DetachUndoesAppend(s.subscriptions, device, callback);
    assert t.subscriptions == s.subscriptions[device := Listeners(s.subscriptions, device) + [callback]];
    var un := UnsubscribeAsWritten(t, device, callback);
    assert un.state.subscriptions == s.subscriptions;
    assert un.state.unsubInterval == s.unsubInterval;
  }

  /** Detaching a callback just appended to a device's list (which did not
      hold it) gives back the registry as it was. */
  lemma DetachUndoesAppend(reg: Registry, device: DeviceId, callback: Callback)
    requires NoEmptyLists(reg)
    requires callback !in Listeners(reg, device)
    ensures Detach(reg[device := Listeners(reg, device) + [callback]], device, callback) == reg
  {
    var xs := Listeners(reg, device);
    var appended := reg[device := xs + [callback]];
    RemoveAppended(xs, callback);
    if xs == [] {
      assert device !in reg;
      assert Detach(appended, device, callback) == appended - {device};
    } else {
      assert Detach(appended, device, callback) == appended[device := xs];
    }
  }

  /** Removing the first occurrence of a value appended to a list that did
      not hold it gives back the list. */
  lemma RemoveAppended(xs: seq<Callback>, x: Callback)
    requires x !in xs
    ensures RemoveFirst(xs + [x], x) == xs
  {
    assert FirstIndex(xs + [x], x) == |xs|;
    assert (xs + [x])[..|xs|] == xs;
  }

  /** When the callback was already registered for the device, the handle
      removes the EARLIER registration: the device keeps the same callbacks
      with the same multiplicities, but not necessarily in the same order. */
  lemma SubscribeThenUnsubscribeDuplicate(s: State, device: DeviceId, callback: Callback, timer: Handle)
    requires Valid(s)
    requires callback in Listeners(s.subscriptions, device)
    ensures var sub := Subscribe(s, device, callback, timer);
            var un := Unsubscribe(sub.step.state, device, callback);
            && un.fault.None? && un.effects == [] && sub.step.effects == []
            && un.state.subscriptions.Keys == s.subscriptions.Keys
            && multiset(un.state.subscriptions[device]) == multiset(s.subscriptions[device])
  {
    var xs := s.subscriptions[device];
    assert multiset(xs + [callback]) - multiset{callback} == multiset(xs);
  }

  // ---------------------------------------------------------------------
  // Fan-out
  // ---------------------------------------------------------------------

  /** Runs every callback registered for a device, once each, in
      registration order; a device with no callbacks runs nothing. */
  method Signal(s: State, device: DeviceId) returns (effects: seq<Effect>)
    ensures |effects| == |Listeners(s.subscriptions, device)|
    ensures forall i :: 0 <= i < |effects| ==>
              effects[i] == Notified(device, Listeners(s.subscriptions, device)[i])
  {
    effects := [];
    if device !in s.subscriptions || s.subscriptions[device] == [] {
      return;
    }
    var callbacks := s.subscriptions[device];
    for i := 0 to |callbacks|
      invariant |effects| == i
      invariant forall j :: 0 <= j < i ==> effects[j] == Notified(device, callbacks[j])
    {
      effects := effects + [Notified(device, callbacks[i])];
    }
  }

  // ---------------------------------------------------------------------
  // Lifecycle
  // ---------------------------------------------------------------------

  /** Shutdown: calls and clears the websocket handle if present, calls and
      clears the interval handle if present, then disconnects the websocket.
      The registry is left as it is. */
  function Stop(s: State): (r: Step)
    ensures r.state == s.(unsubInterval := None, unsubWebsocket := None)
    ensures r.fault.None?
    ensures Invoked(r.effects)
            == (if s.unsubWebsocket.Some? then [WebsocketCancelled(s.unsubWebsocket.value)] else [])
               + (if s.unsubInterval.Some? then [TimerCancelled(s.unsubInterval.value)] else [])
    ensures |r.effects| == |Invoked(r.effects)| + 1
    ensures r.effects[|r.effects| - 1] == WebsocketDisconnected
  {
    var socketEffects := if s.unsubWebsocket.Some? then [WebsocketCancelled(s.unsubWebsocket.value)] else [];
    var timerEffects := if s.unsubInterval.Some? then [TimerCancelled(s.unsubInterval.value)] else [];
    InvokedAppend(socketEffects, timerEffects);
    InvokedAppend(socketEffects + timerEffects, [WebsocketDisconnected]);
    Step(s.(unsubInterval := None, unsubWebsocket := None),
         socketEffects + timerEffects + [WebsocketDisconnected], None)
  }

  function IsHandleCall(e: Effect): bool {
    e.TimerCancelled? || e.WebsocketCancelled?
  }

  /** The handle invocations among a run of effects, in order. */
  function Invoked(effects: seq<Effect>): seq<Effect>
    decreases |effects|
  {
    if effects == [] then []
    else (if IsHandleCall(effects[0]) then [effects[0]] else []) + Invoked(effects[1..])
  }

  lemma {:induction false} InvokedAppend(a: seq<Effect>, b: seq<Effect>)
    ensures Invoked(a + b) == Invoked(a) + Invoked(b)
    decreases |a|
  {
    if a == [] {
      assert a + b == b;
    } else {
      var head := if IsHandleCall(a[0]) then [a[0]] else [];
      calc {
        Invoked(a + b);
        { assert (a + b)[0] == a[0]; }
        head + Invoked((a + b)[1..]);
        { assert (a + b)[1..] == a[1..] + b; }
        head + Invoked(a[1..] + b);
        { InvokedAppend(a[1..], b); }
        head + (Invoked(a[1..]) + Invoked(b));
        Invoked(a) + Invoked(b);
      }
    }
  }

  /** `Stop` called `n` times in a row. */
  function StopRepeatedly(s: State, n: nat): (r: Step)
    decreases n
  {
    if n == 0 then Step(s, [], None)
    else
      var first := Stop(s);
      var rest := StopRepeatedly(first.state, n - 1);
      Step(rest.state, first.effects + rest.effects, None)
  }

  /** Stopping is idempotent: over any number n >= 1 of calls each handle is
      invoked at most once (exactly the invocations of the first call) and
      both handles end as None. */
  lemma {:induction false} StopIdempotent(s: State, n: nat)
    requires n >= 1
    ensures StopRepeatedly(s, n).state == Stop(s).state
    ensures Invoked(StopRepeatedly(s, n).effects) == Invoked(Stop(s).effects)
    ensures StopRepeatedly(s, n).state.unsubInterval.None? && StopRepeatedly(s, n).state.unsubWebsocket.None?
    ensures |Invoked(StopRepeatedly(s, n).effects)| <= 2
    decreases n
  {
    var first := Stop(s);
    var rest := StopRepeatedly(first.state, n - 1);
    InvokedAppend(first.effects, rest.effects);
    if n > 1 {
      StopIdempotent(first.state, n - 1);
      assert Stop(first.state).state == first.state;
      assert Invoked(Stop(first.state).effects) == [];
    }
  }

  /** The outcome of the client library's update call. */
  datatype UpdateResult = Updated | RaisedNvrError | RaisedNotAuthorized | RaisedOther

  /** One refresh. Success sets the flag. NvrError clears it and logs only
      when the previous refresh had succeeded. NotAuthorized stops the
      coordinator, logs, requests reauthentication and clears the flag. Any
      other exception propagates with nothing changed. */
  function Refresh(s: State, result: UpdateResult): (r: Step)
    ensures result == Updated ==> r == Step(s.(lastUpdateSuccess := true), [], None)
    ensures result == RaisedNvrError ==>
              && r.state == s.(lastUpdateSuccess := false) && r.fault.None?
              && (r.effects == [ErrorLogged] <==> s.lastUpdateSuccess)
              && (r.effects == [] <==> !s.lastUpdateSuccess)
    ensures result == RaisedNotAuthorized ==>
              && r.state == s.(unsubInterval := None, unsubWebsocket := None, lastUpdateSuccess := false)
              && r.fault.None?
              && r.effects == Stop(s).effects + [ErrorLogged, ReauthStarted]
    ensures result == RaisedOther ==> r == Step(s, [], Some(UpdateRaised))
    ensures r.state.subscriptions == s.subscriptions
    ensures r.fault.None? ==> (r.state.lastUpdateSuccess <==> result == Updated)
  {
    match result
    case Updated => Step(s.(lastUpdateSuccess := true), [], None)
    case RaisedNvrError =>
      Step(s.(lastUpdateSuccess := false), if s.lastUpdateSuccess then [ErrorLogged] else [], None)
    case RaisedNotAuthorized =>
      var stopped := Stop(s);
      Step(stopped.state.(lastUpdateSuccess := false), stopped.effects + [ErrorLogged, ReauthStarted], None)
    case RaisedOther => Step(s, [], Some(UpdateRaised))
  }

  /** Setup: subscribes to the websocket (the client supplies `socket`), then
      refreshes once. The subscription survives every refresh outcome except
      NotAuthorized, whose stop cancels it; any other exception propagates
      after the subscription. */
  function Setup(s: State, socket: Handle, result: UpdateResult): (r: Step)
    ensures |r.effects| > 0 && r.effects[0] == WebsocketSubscribed(socket)
    ensures result == Updated ==> r.state.unsubWebsocket == Some(socket) && r.state.lastUpdateSuccess
    ensures result == RaisedNotAuthorized ==>
              r.state.unsubWebsocket.None? && r.state.unsubInterval.None? && !r.state.lastUpdateSuccess
              && WebsocketCancelled(socket) in r.effects && ReauthStarted in r.effects
    ensures result == RaisedNvrError ==>
              && r.fault.None? && r.state.unsubWebsocket == Some(socket) && !r.state.lastUpdateSuccess
              && (ErrorLogged in r.effects <==> s.lastUpdateSuccess)
    ensures result == RaisedOther ==>
              && r.fault == Some(UpdateRaised) && r.state.unsubWebsocket == Some(socket)
              && r.effects == [WebsocketSubscribed(socket)]
    ensures r.state.subscriptions == s.subscriptions
    ensures result == Updated ==>
              r == Step(s.(unsubWebsocket := Some(socket), lastUpdateSuccess := true), [WebsocketSubscribed(socket)], None)
    ensures result == RaisedNotAuthorized ==>
              && r.fault.None?
              && r.effects == [WebsocketSubscribed(socket)] + Stop(s.(unsubWebsocket := Some(socket))).effects + [ErrorLogged, ReauthStarted]
    ensures result != RaisedNotAuthorized ==> r.state.unsubInterval == s.unsubInterval
  {
    var refreshed := Refresh(s.(unsubWebsocket := Some(socket)), result);
    Step(refreshed.state, [WebsocketSubscribed(socket)] + refreshed.effects, refreshed.fault)
  }

  /** A run of refresh outcomes, applied in order. */
  function RefreshAll(s: State, results: seq<UpdateResult>): (r: Step)
    decreases |results|
  {
    if results == [] then Step(s, [], None)
    else
      var first := Refresh(s, results[0]);
      var rest := RefreshAll(first.state, results[1..]);
      Step(rest.state, first.effects + rest.effects, rest.fault)
  }

  function CountLogged(effects: seq<Effect>): nat
    decreases |effects|
  {
    if effects == [] then 0
    else (if effects[0] == ErrorLogged then 1 else 0) + CountLogged(effects[1..])
  }

  /** A sustained outage logs once: after a success, any number of NvrError
      refreshes log exactly one line and leave the flag false. */
  lemma {:induction false} OutageLogsOnce(s: State, n: nat)
    requires n >= 1
    ensures var r := RefreshAll(s.(lastUpdateSuccess := true), seq(n, _ => RaisedNvrError));
            CountLogged(r.effects) == 1 && !r.state.lastUpdateSuccess
  {
    var failures := seq(n, _ => RaisedNvrError);
    var first := Refresh(s.(lastUpdateSuccess := true), RaisedNvrError);
    assert failures[1..] == seq(n - 1, _ => RaisedNvrError);
    assert first.effects == [ErrorLogged];
    SilentOutage(first.state, n - 1);
    var rest := RefreshAll(first.state, failures[1..]);
    CountLoggedAppend(first.effects, rest.effects);
  }

  /** Without a preceding success, NvrError refreshes log nothing. */
  lemma {:induction false} SilentOutage(s: State, n: nat)
    requires !s.lastUpdateSuccess
    ensures var r := RefreshAll(s, seq(n, _ => RaisedNvrError));
            r.effects == [] && !r.state.lastUpdateSuccess && r.state.subscriptions == s.subscriptions
    decreases n
  {
    if n > 0 {
      var failures := seq(n, _ => RaisedNvrError);
      assert failures[0] == RaisedNvrError;
      assert failures[1..] == seq(n - 1, _ => RaisedNvrError);
      SilentOutage(Refresh(s, RaisedNvrError).state, n - 1);
    }
  }

  lemma {:induction false} CountLoggedAppend(a: seq<Effect>, b: seq<Effect>)
    ensures CountLogged(a + b) == CountLogged(a) + CountLogged(b)
    decreases |a|
  {
    if a == [] {
      assert a + b == b;
    } else {
      var head := if a[0] == ErrorLogged then 1 else 0;
      calc {
        CountLogged(a + b);
        { assert (a + b)[0] == a[0]; }
        head + CountLogged((a + b)[1..]);
        { assert (a + b)[1..] == a[1..] + b; }
        head + CountLogged(a[1..] + b);
        { CountLoggedAppend(a[1..], b); }
        CountLogged(a) + CountLogged(b);
      }
    }
  }

  // ---------------------------------------------------------------------
  // Stop leaves the registry: the consequences
  // ---------------------------------------------------------------------

  /** Stopping a coordinator that still has subscribers breaks the registry
      invariant: the timer is gone but the registrations remain. */
  lemma StopBreaksTimerInvariant(s: State)
    requires Valid(s) && s.subscriptions != map[]
    ensures !Valid(Stop(s).state)
  {
  }

  /** After `Stop`, a new subscription does not restart polling, because the
      registry is not empty. */
  lemma SubscribeAfterStopStartsNoTimer(s: State, device: DeviceId, callback: Callback, timer: Handle)
    requires s.subscriptions != map[]
    ensures var r := Subscribe(Stop(s).state, device, callback, timer);
            r.step.effects == [] && r.step.state.unsubInterval.None?
  {
  }

  /** The as-written unsubscribe, after `Stop`, calls the None interval handle
      when it removes the last registration: registry {d: [cb]} with a live
      timer, then `Stop`, then unsubscribe (d, cb). */
  lemma StopThenLastUnsubscribeCallsNone(d: DeviceId, cb: Callback, timer: Handle, lastSuccess: bool)
    ensures var s := State(map[d := [cb]], Some(timer), None, lastSuccess);
            && Valid(s)
            && UnsubscribeAsWritten(Stop(s).state, d, cb).fault == Some(NoneCalled)
  {
    var s := State(map[d := [cb]], Some(timer), None, lastSuccess);
    assert d in s.subscriptions;
    var stopped := Stop(s).state;
    assert Detach(stopped.subscriptions, d, cb) == map[];
  }

  /** The guarded unsubscribe removes the same registration after `Stop`
      without raising, and invokes no handle. */
  lemma StopThenLastUnsubscribeIsClean(d: DeviceId, cb: Callback, timer: Handle, lastSuccess: bool)
    ensures var s := State(map[d := [cb]], Some(timer), None, lastSuccess);
            var r := Unsubscribe(Stop(s).state, d, cb);
            && r.fault.None? && r.effects == [] && r.state.subscriptions == map[]
            && Valid(r.state)
  {
  }

  // ---------------------------------------------------------------------
  // Device lookup by type
  // ---------------------------------------------------------------------

  /** The bootstrap attribute holding the devices of a model type. */
  function CollectionName(modelType: string): string {
    modelType + "s"
  }

  ghost predicate AllPresent<D>(collections: map<string, seq<D>>, types: seq<string>) {
    forall i :: 0 <= i < |types| ==> CollectionName(types[i]) in collections
  }

  /** The devices of the given types: each type's collection in turn, in the
      order the types are given. */
  ghost function Flatten<D>(collections: map<string, seq<D>>, types: seq<string>): seq<D>
    requires AllPresent(collections, types)
    decreases |types|
  {
    if types == [] then []
    else Flatten(collections, types[..|types| - 1]) + collections[CollectionName(types[|types| - 1])]
  }

  /** `get_by_types`, a generator, run to completion: it yields every device
      of every requested type, type by type, and if a type has no bootstrap
      collection it stops there, having yielded the earlier types' devices.
      `missing` names that type. */
  method GetByTypes<D>(collections: map<string, seq<D>>, types: seq<string>)
    returns (devices: seq<D>, missing: Option<string>)
    ensures missing.None? <==> AllPresent(collections, types)
    ensures missing.None? ==> devices == Flatten(collections, types)
    ensures missing.Some? ==>
              exists k :: 0 <= k < |types| && types[k] == missing.value
                          && CollectionName(types[k]) !in collections
                          && AllPresent(collections, types[..k])
                          && devices == Flatten(collections, types[..k])
  {
    devices := [];
    missing := None;
    var i := 0;
    while i < |types|
      invariant 0 <= i <= |types|
      invariant AllPresent(collections, types[..i])
      invariant devices == Flatten(collections, types[..i])
    {
      var name := CollectionName(types[i]);
      if name !in collections {
        missing := Some(types[i]);
        return;
      }
      assert types[..i + 1][..i] == types[..i];
      devices := devices + collections[name];
      i := i + 1;
    }
    assert types[..i] == types;
  }

  /** Membership in the concatenation: a device is yielded exactly when it
      is in the collection of one of the requested types. */
  lemma {:induction false} FlattenMembership<D>(collections: map<string, seq<D>>, types: seq<string>, d: D)
    requires AllPresent(collections, types)
    ensures d in Flatten(collections, types) <==>
              exists i :: 0 <= i < |types| && d in collections[CollectionName(types[i])]
    decreases |types|
  {
    if types != [] {
      var prefix := types[..|types| - 1];
      FlattenMembership(collections, prefix, d);
      if d in Flatten(collections, types) {
        if d !in Flatten(collections, prefix) {
          assert d in collections[CollectionName(types[|types| - 1])];
        } else {
          var i :| 0 <= i < |prefix| && d in collections[CollectionName(prefix[i])];
          assert prefix[i] == types[i];
        }
      }
      if exists i :: 0 <= i < |types| && d in collections[CollectionName(types[i])] {
        var i :| 0 <= i < |types| && d in collections[CollectionName(types[i])];
        if i < |types| - 1 {
          assert prefix[i] == types[i];
        }
      }
    }
  }

  /** Requesting the types of `a` and then those of `b` yields the devices
      of `a` followed by those of `b`. */
  lemma {:induction false} FlattenAppend<D>(collections: map<string, seq<D>>, a: seq<string>, b: seq<string>)
    requires AllPresent(collections, a + b)
    ensures AllPresent(collections, a) && AllPresent(collections, b)
    ensures Flatten(collections, a + b) == Flatten(collections, a) + Flatten(collections, b)
    decreases |b|
  {
    forall i | 0 <= i < |a| ensures CollectionName(a[i]) in collections {
      assert (a + b)[i] == a[i];
    }
    forall i | 0 <= i < |b| ensures CollectionName(b[i]) in collections {
      assert (a + b)[|a| + i] == b[i];
    }
    if b == [] {
      assert a + b == a;
    } else {
      var b' := b[..|b| - 1];
      assert (a + b)[..|a + b| - 1] == a + b';
      FlattenAppend(collections, a, b');
    }
  }
}

=== FILE: mirror.dfy ===
/** The server wrapper's device mirror: a map from camera id to a camera
    record, filled by the bootstrap list, updated by motion events, and
    written back after a successful settings patch. */
module Mirror {
  import opened Types

  /** A timestamp as the mirror stores it. The source stores the local-time
      rendering of an epoch-millisecond value, to the second; the model keeps
      the epoch milliseconds themselves, so it distinguishes stamps that the
      rendering would merge. */
  datatype Stamp = Stamp(epochMs: int)

  /** The up-since field: "Offline" when the camera reports no up-since time. */
  datatype UpSince = Offline | UpAt(at: Stamp)

  datatype RawChannel = RawChannel(isRtspEnabled: bool, rtspAlias: string)

  /** One entry of the bootstrap's camera list, reduced to the fields read. */
  datatype RawCamera = RawCamera(
    id: string,
    name: string,
    kind: string,
    state: string,
    recordingMode: string,
    irLedMode: string,
    lastMotion: Option<int>,
    upSince: Option<int>,
    connectionHost: string,
    channels: seq<RawChannel>)

  /** One motion event of the event log. */
  datatype RawEvent = RawEvent(
    camera: string,
    start: Option<int>,
    end: Option<int>,
    score: int,
    thumbnail: Option<string>)

  /** The mirror's record of one camera. */
  datatype Camera = Camera(
    name: string,
    kind: string,
    recordingMode: string,
    irMode: string,
    rtsp: Option<string>,
    upSince: UpSince,
    lastMotion: Option<Stamp>,
    online: bool,
    motionStart: Option<Stamp>,
    motionScore: int,
    motionThumbnail: Option<string>,
    motionOn: bool)

  type Devices = map<string, Camera>

  const ConnectedState := "CONNECTED"
  const RtspScheme := "rtsp://"
  const RtspPortPath := ":7447/"

  // ---------------------------------------------------------------------
  // Bootstrap merge
  // ---------------------------------------------------------------------

  function StampOf(ms: Option<int>): Option<Stamp> {
    match ms
    case None => None
    case Some(v) => Some(Stamp(v))
  }

  function UpSinceOf(ms: Option<int>): (r: UpSince)
    ensures r == Offline <==> ms.None?
  {
    match ms
    case None => Offline
    case Some(v) => UpAt(Stamp(v))
  }

  /** The streaming URL of the first channel with RTSP enabled, if any. */
  function RtspUrl(host: string, channels: seq<RawChannel>): (r: Option<string>)
    ensures r.None? <==> forall i :: 0 <= i < |channels| ==> !channels[i].isRtspEnabled
    ensures r.Some? ==>
              exists i :: 0 <= i < |channels| && channels[i].isRtspEnabled
                          && (forall j :: 0 <= j < i ==> !channels[j].isRtspEnabled)
                          && r.value == RtspScheme + host + RtspPortPath + channels[i].rtspAlias
    decreases |channels|
  {
    if channels == [] then None
    else if channels[0].isRtspEnabled then Some(RtspScheme + host + RtspPortPath + channels[0].rtspAlias)
    else
      var r := RtspUrl(host, channels[1..]);
      if r.Some? then
        var i :| 0 <= i < |channels[1..]| && channels[1..][i].isRtspEnabled
                 && (forall j :: 0 <= j < i ==> !channels[1..][j].isRtspEnabled)
                 && r.value == RtspScheme + host + RtspPortPath + channels[1..][i].rtspAlias;
        assert channels[i + 1] == channels[1..][i];
        r
      else r
  }

  /** The five fields every bootstrap load rewrites, as the entry reports them. */
  ghost predicate ReflectsBootstrap(c: Camera, raw: RawCamera) {
    && c.lastMotion == StampOf(raw.lastMotion)
    && c.online == (raw.state == ConnectedState)
    && c.upSince == UpSinceOf(raw.upSince)
    && c.recordingMode == raw.recordingMode
    && c.irMode == raw.irLedMode
  }

  /** The motion fields, which only event processing sets. */
  ghost predicate SameMotion(a: Camera, b: Camera) {
    && a.motionStart == b.motionStart
    && a.motionScore == b.motionScore
    && a.motionThumbnail == b.motionThumbnail
    && a.motionOn == b.motionOn
  }

  /** The fields a bootstrap load never rewrites once a camera is known. */
  ghost predicate SameKeptFields(a: Camera, b: Camera) {
    a.name == b.name && a.kind == b.kind && a.rtsp == b.rtsp && SameMotion(a, b)
  }

  /** The fields event processing never touches. */
  ghost predicate SameBootstrapFields(a: Camera, b: Camera) {
    && a.name == b.name && a.kind == b.kind && a.rtsp == b.rtsp
    && a.recordingMode == b.recordingMode && a.irMode == b.irMode
    && a.upSince == b.upSince && a.lastMotion == b.lastMotion && a.online == b.online
  }

  ghost predicate MotionAtRest(c: Camera) {
    c.motionStart.None? && c.motionScore == 0 && c.motionThumbnail.None? && !c.motionOn
  }

  /** The record inserted for a camera id seen for the first time. */
  function NewCamera(raw: RawCamera): (c: Camera)
    ensures ReflectsBootstrap(c, raw)
    ensures c.online <==> raw.state == ConnectedState
    ensures c.upSince == Offline <==> raw.upSince.None?
    ensures MotionAtRest(c)
    ensures c.name == raw.name && c.kind == raw.kind
    ensures c.rtsp == RtspUrl(raw.connectionHost, raw.channels)
  {
    Camera(
      name := raw.name,
      kind := raw.kind,
      recordingMode := raw.recordingMode,
      irMode := raw.irLedMode,
      rtsp := RtspUrl(raw.connectionHost, raw.channels),
      upSince := UpSinceOf(raw.upSince),
      lastMotion := StampOf(raw.lastMotion),
      online := raw.state == ConnectedState,
      motionStart := None,
      motionScore := 0,
      motionThumbnail := None,
      motionOn := false)
  }

  /** One iteration of the bootstrap loop: insert a full record for a new id,
      rewrite only the five bootstrap fields of a known one. */
  function MergeCamera(devs: Devices, raw: RawCamera): (r: Devices)
    ensures r.Keys == devs.Keys + {raw.id}
    ensures ReflectsBootstrap(r[raw.id], raw)
    ensures raw.id !in devs ==> r[raw.id] == NewCamera(raw)
    ensures raw.id in devs ==> SameKeptFields(r[raw.id], devs[raw.id])
    ensures forall id :: id in devs && id != raw.id ==> r[id] == devs[id]
  {
    if raw.id !in devs then devs[raw.id := NewCamera(raw)]
    else
      var c := devs[raw.id];
      devs[raw.id := c.(lastMotion := StampOf(raw.lastMotion),
                        online := raw.state == ConnectedState,
                        upSince := UpSinceOf(raw.upSince),
                        recordingMode := raw.recordingMode,
                        irMode := raw.irLedMode)]
  }

  function Ids(cams: seq<RawCamera>): set<string> {
    set i | 0 <= i < |cams| :: cams[i].id
  }

  /** The bootstrap loop over the camera list, in list order. */
  function MergeBootstrap(devs: Devices, cams: seq<RawCamera>): (r: Devices)
    ensures r.Keys == devs.Keys + Ids(cams)
    decreases |cams|
  {
    if cams == [] then devs
    else
      var prefix := cams[..|cams| - 1];
      assert Ids(cams) == Ids(prefix) + {cams[|cams| - 1].id} by {
        forall id | id in Ids(cams) ensures id in Ids(prefix) + {cams[|cams| - 1].id} {
          var i :| 0 <= i < |cams| && cams[i].id == id;
          if i < |cams| - 1 { assert prefix[i] == cams[i]; }
        }
        forall id | id in Ids(prefix) ensures id in Ids(cams) {
          var i :| 0 <= i < |prefix| && prefix[i].id == id;
          assert cams[i] == prefix[i];
        }
      }
      MergeCamera(MergeBootstrap(devs, prefix), cams[|cams| - 1])
  }

  /** A bootstrap load never changes the name, type, streaming URL or motion
      fields of a camera the mirror already knew. */
  lemma {:induction false} BootstrapKeepsKnownCamera(devs: Devices, cams: seq<RawCamera>, id: string)
    requires id in devs
    ensures id in MergeBootstrap(devs, cams)
    ensures SameKeptFields(MergeBootstrap(devs, cams)[id], devs[id])
    decreases |cams|
  {
    if cams != [] {
      BootstrapKeepsKnownCamera(devs, cams[..|cams| - 1], id);
    }
  }

  /** A camera the list does not mention is left exactly as it was. */
  lemma {:induction false} BootstrapLeavesUnlisted(devs: Devices, cams: seq<RawCamera>, id: string)
    requires id in devs && id !in Ids(cams)
    ensures MergeBootstrap(devs, cams)[id] == devs[id]
    decreases |cams|
  {
    if cams != [] {
      var prefix := cams[..|cams| - 1];
      assert Ids(prefix) <= Ids(cams) by {
        forall x | x in Ids(prefix) ensures x in Ids(cams) {
          var i :| 0 <= i < |prefix| && prefix[i].id == x;
          assert cams[i] == prefix[i];
        }
      }
      BootstrapLeavesUnlisted(devs, prefix, id);
      assert cams[|cams| - 1].id in Ids(cams);
    }
  }

  /** A camera id new to the mirror gets the record built from its FIRST
      entry in the list: that entry's name, type and streaming URL, and motion
      fields at rest (no start, score 0, no thumbnail, motion off). */
  lemma {:induction false} BootstrapInsertsNewCamera(devs: Devices, cams: seq<RawCamera>, k: nat)
    requires k < |cams| && cams[k].id !in devs
    requires forall j :: 0 <= j < k ==> cams[j].id != cams[k].id
    ensures SameKeptFields(MergeBootstrap(devs, cams)[cams[k].id], NewCamera(cams[k]))
    ensures MotionAtRest(MergeBootstrap(devs, cams)[cams[k].id])
    decreases |cams|
  {
    var id := cams[k].id;
    var prefix := cams[..|cams| - 1];
    var before := MergeBootstrap(devs, prefix);
    if k < |cams| - 1 {
      assert prefix[k] == cams[k];
      BootstrapInsertsNewCamera(devs, prefix, k);
      assert id in before;
    } else {
      assert id !in Ids(prefix) by {
        forall i | 0 <= i < |prefix| ensures prefix[i].id != id {
          assert prefix[i] == cams[i];
        }
      }
      assert id !in before;
    }
  }

  /** After a load, the five bootstrap fields of every listed camera are the
      ones its LAST entry in the list reports. */
  lemma {:induction false} BootstrapReflectsLastEntry(devs: Devices, cams: seq<RawCamera>, k: nat)
    requires k < |cams|
    requires forall j :: k < j < |cams| ==> cams[j].id != cams[k].id
    ensures ReflectsBootstrap(MergeBootstrap(devs, cams)[cams[k].id], cams[k])
    decreases |cams|
  {
    if k < |cams| - 1 {
      var prefix := cams[..|cams| - 1];
      assert prefix[k] == cams[k];
      BootstrapReflectsLastEntry(devs, prefix, k);
    }
  }

  /** The bootstrap fetch: a reply other than 200 raises NvrError and leaves
      the mirror alone; a 200 reply merges its camera list. */
  function LoadBootstrap(devs: Devices, status: int, cams: seq<RawCamera>): (r: Result<Devices>)
    ensures r.Success? <==> status == StatusOk
    ensures r.Failure? ==> r.error == NvrError
    ensures r.Success? ==> r.value.Keys == devs.Keys + Ids(cams)
    ensures r.Success? ==> forall id :: id in devs ==> SameKeptFields(r.value[id], devs[id])
  {
    if status != StatusOk then Failure(NvrError)
    else
      var merged := MergeBootstrap(devs, cams);
      assert forall id :: id in devs ==> SameKeptFields(merged[id], devs[id]) by {
        forall id | id in devs ensures SameKeptFields(merged[id], devs[id]) {
          BootstrapKeepsKnownCamera(devs, cams, id);
        }
      }
      Success(merged)
  }

  // ---------------------------------------------------------------------
  // Motion events
  // ---------------------------------------------------------------------

  /** JSON truthiness of a timestamp: absent and zero are both false. */
  predicate Truthy(v: Option<int>) {
    v.Some? && v.value != 0
  }

  function EventStart(e: RawEvent): Option<Stamp> {
    if Truthy(e.start) then Some(Stamp(e.start.value)) else None
  }

  /** The motion-on rule: an event that has ended is never active; an open
      event is active exactly when its score reaches the minimum score. */
  predicate MotionOn(e: RawEvent, minimumScore: int) {
    !Truthy(e.end) && e.score >= minimumScore
  }

  /** Applies one event to its camera's record. */
  function ApplyMotion(c: Camera, e: RawEvent, minimumScore: int): (r: Camera)
    ensures Truthy(e.end) ==> !r.motionOn
    ensures !Truthy(e.end) ==> (r.motionOn <==> e.score >= minimumScore)
    ensures r.motionStart == EventStart(e) && r.motionScore == e.score
    ensures e.thumbnail.Some? ==> r.motionThumbnail == e.thumbnail
    ensures e.thumbnail.None? ==> r.motionThumbnail == c.motionThumbnail
    ensures SameBootstrapFields(r, c)
  {
    c.(motionStart := EventStart(e),
       motionScore := e.score,
       motionOn := MotionOn(e, minimumScore),
       motionThumbnail := if e.thumbnail.Some? then e.thumbnail else c.motionThumbnail)
  }

  /** The mirror after the event loop, and the camera id of the event that
      stopped it, if one named a camera the mirror does not hold. Events
      before that one stay applied. */
  datatype Applied = Applied(devices: Devices, unknown: Option<string>)

  ghost predicate AllKnown(devs: Devices, evs: seq<RawEvent>) {
    forall i :: 0 <= i < |evs| ==> evs[i].camera in devs
  }

  /** The event loop, in log order, stopping at the first unknown camera. */
  function ApplyMotionEvents(devs: Devices, evs: seq<RawEvent>, minimumScore: int): (r: Applied)
    ensures r.devices.Keys == devs.Keys
    ensures r.unknown.None? <==> AllKnown(devs, evs)
    ensures forall id :: id in devs ==> SameBootstrapFields(r.devices[id], devs[id])
    decreases |evs|
  {
    if evs == [] then Applied(devs, None)
    else
      var prefix := evs[..|evs| - 1];
      var e := evs[|evs| - 1];
      var prev := ApplyMotionEvents(devs, prefix, minimumScore);
      assert AllKnown(devs, evs) <==> AllKnown(devs, prefix) && e.camera in devs by {
        if AllKnown(devs, prefix) && e.camera in devs {
          forall i | 0 <= i < |evs| ensures evs[i].camera in devs {
            if i < |evs| - 1 { assert evs[i] == prefix[i]; }
          }
        }
        if AllKnown(devs, evs) {
          forall i | 0 <= i < |prefix| ensures prefix[i].camera in devs {
            assert prefix[i] == evs[i];
          }
        }
      }
      if prev.unknown.Some? then prev
      else if e.camera !in prev.devices then Applied(prev.devices, Some(e.camera))
      else Applied(prev.devices[e.camera := ApplyMotion(prev.devices[e.camera], e, minimumScore)], None)
  }

  /** The loop stops at the FIRST event naming an unknown camera: it reports
      that camera, and the mirror holds exactly the effect of the events
      before it. */
  lemma {:induction false} EventsStopAtFirstUnknown(devs: Devices, evs: seq<RawEvent>, minimumScore: int, k: nat)
    requires k < |evs| && evs[k].camera !in devs
    requires AllKnown(devs, evs[..k])
    ensures ApplyMotionEvents(devs, evs, minimumScore)
            == Applied(ApplyMotionEvents(devs, evs[..k], minimumScore).devices, Some(evs[k].camera))
    decreases |evs|
  {
    var prefix := evs[..|evs| - 1];
    if k < |evs| - 1 {
      assert prefix[k] == evs[k];
      assert prefix[..k] == evs[..k];
      EventsStopAtFirstUnknown(devs, prefix, minimumScore, k);
    } else {
      assert prefix == evs[..k];
    }
  }

  /** A camera no event names keeps its record unchanged. */
  lemma {:induction false} EventsLeaveUnnamedCamera(devs: Devices, evs: seq<RawEvent>, minimumScore: int, id: string)
    requires id in devs
    requires forall i :: 0 <= i < |evs| ==> evs[i].camera != id
    ensures ApplyMotionEvents(devs, evs, minimumScore).devices[id] == devs[id]
    decreases |evs|
  {
    if evs != [] {
      EventsLeaveUnnamedCamera(devs, evs[..|evs| - 1], minimumScore, id);
    }
  }

  /** When every event names a known camera, the motion start, score and
      on-flag of a camera come from the LAST event that names it. */
  lemma {:induction false} EventsLastWins(devs: Devices, evs: seq<RawEvent>, minimumScore: int, k: nat)
    requires AllKnown(devs, evs)
    requires k < |evs|
    requires forall j :: k < j < |evs| ==> evs[j].camera != evs[k].camera
    ensures var c := ApplyMotionEvents(devs, evs, minimumScore).devices[evs[k].camera];
            && c.motionStart == EventStart(evs[k])
            && c.motionScore == evs[k].score
            && c.motionOn == MotionOn(evs[k], minimumScore)
    decreases |evs|
  {
    var prefix := evs[..|evs| - 1];
    assert AllKnown(devs, prefix) by {
      forall i | 0 <= i < |prefix| ensures prefix[i].camera in devs { assert prefix[i] == evs[i]; }
    }
    if k < |evs| - 1 {
      assert prefix[k] == evs[k];
      EventsLastWins(devs, prefix, minimumScore, k);
    }
  }

  /** Events that carry no thumbnail never clear a camera's thumbnail: if
      none of the events naming a camera carries one, it keeps the thumbnail
      it had. */
  lemma {:induction false} EventsKeepThumbnail(devs: Devices, evs: seq<RawEvent>, minimumScore: int, id: string)
    requires id in devs
    requires forall i :: 0 <= i < |evs| && evs[i].camera == id ==> evs[i].thumbnail.None?
    ensures ApplyMotionEvents(devs, evs, minimumScore).devices[id].motionThumbnail == devs[id].motionThumbnail
    decreases |evs|
  {
    if evs != [] {
      var prefix := evs[..|evs| - 1];
      forall i | 0 <= i < |prefix| ensures prefix[i] == evs[i] { }
      EventsKeepThumbnail(devs, prefix, minimumScore, id);
    }
  }

  /** When every event names a known camera, a camera's thumbnail is the one
      carried by the last event that names it AND carries a thumbnail. */
  lemma {:induction false} EventsLastThumbnailWins(devs: Devices, evs: seq<RawEvent>, minimumScore: int, k: nat)
    requires AllKnown(devs, evs)
    requires k < |evs| && evs[k].thumbnail.Some?
    requires forall j :: k < j < |evs| && evs[j].camera == evs[k].camera ==> evs[j].thumbnail.None?
    ensures ApplyMotionEvents(devs, evs, minimumScore).devices[evs[k].camera].motionThumbnail == evs[k].thumbnail
    decreases |evs|
  {
    var prefix := evs[..|evs| - 1];
    forall i | 0 <= i < |prefix| ensures prefix[i] == evs[i] { }
    if k < |evs| - 1 {
      EventsLastThumbnailWins(devs, prefix, minimumScore, k);
    }
  }

  /** The mirror after a load together with the outcome the caller sees. */
  datatype Loaded = Loaded(devices: Devices, outcome: Outcome)

  /** The event-log fetch: a reply other than 200 raises NvrError and leaves
      the mirror alone; a 200 reply runs the event loop, and an event naming
      an unknown camera raises the lookup failure with the earlier events
      already applied. */
  function LoadMotionEvents(devs: Devices, status: int, evs: seq<RawEvent>, minimumScore: int): (r: Loaded)
    ensures status != StatusOk ==> r == Loaded(devs, Fail(NvrError))
    ensures r.devices.Keys == devs.Keys
    ensures forall id :: id in devs ==> SameBootstrapFields(r.devices[id], devs[id])
    ensures status == StatusOk ==> (r.outcome.Pass? <==> AllKnown(devs, evs))
    ensures r.outcome.Fail? && status == StatusOk ==>
              exists i :: 0 <= i < |evs| && evs[i].camera !in devs && r.outcome.error == MissingCamera(evs[i].camera)
    ensures status == StatusOk && !AllKnown(devs, evs) ==>
              var k := FirstUnknown(devs, evs);
              r == Loaded(ApplyMotionEvents(devs, evs[..k], minimumScore).devices, Fail(MissingCamera(evs[k].camera)))
  {
    if status != StatusOk then Loaded(devs, Fail(NvrError))
    else
      var applied := ApplyMotionEvents(devs, evs, minimumScore);
      match applied.unknown
      case None => Loaded(applied.devices, Pass)
      case Some(id) =>
        ghost var k := FirstUnknown(devs, evs);
        EventsStopAtFirstUnknown(devs, evs, minimumScore, k);
        Loaded(applied.devices, Fail(MissingCamera(id)))
  }

  ghost function FirstUnknown(devs: Devices, evs: seq<RawEvent>): (k: nat)
    requires !AllKnown(devs, evs)
    ensures k < |evs| && evs[k].camera !in devs && AllKnown(devs, evs[..k])
    decreases |evs|
  {
    if evs[0].camera !in devs then 0
    else
      assert !AllKnown(devs, evs[1..]) by {
        var i :| 0 <= i < |evs| && evs[i].camera !in devs;
        assert evs[1..][i - 1] == evs[i];
      }
      var k := FirstUnknown(devs, evs[1..]) + 1;
      assert forall i :: 0 <= i < k ==> evs[..k][i] == evs[i];
      assert forall i :: 1 <= i < k ==> evs[i] == evs[1..][..k - 1][i - 1];
      k
  }

  /** The update cycle: the camera list, then the recent motion events; a
      failed camera-list fetch skips the event fetch. Cameras listed by the
      bootstrap end with the bootstrap fields their last entry reports, since
      event processing never touches those fields. */
  function Update(devs: Devices, listStatus: int, cams: seq<RawCamera>,
                  eventStatus: int, evs: seq<RawEvent>, minimumScore: int): (r: Loaded)
    ensures listStatus != StatusOk ==> r == Loaded(devs, Fail(NvrError))
    ensures listStatus == StatusOk ==> r.devices.Keys == devs.Keys + Ids(cams)
    ensures listStatus == StatusOk ==>
              forall k :: 0 <= k < |cams| && (forall j :: k < j < |cams| ==> cams[j].id != cams[k].id)
                ==> ReflectsBootstrap(r.devices[cams[k].id], cams[k])
  {
    match LoadBootstrap(devs, listStatus, cams)
    case Failure(e) => Loaded(devs, Fail(e))
    case Success(merged) =>
      var r := LoadMotionEvents(merged, eventStatus, evs, minimumScore);
      assert forall k :: 0 <= k < |cams| && (forall j :: k < j < |cams| ==> cams[j].id != cams[k].id)
                ==> ReflectsBootstrap(r.devices[cams[k].id], cams[k]) by {
        forall k | 0 <= k < |cams| && (forall j :: k < j < |cams| ==> cams[j].id != cams[k].id)
          ensures ReflectsBootstrap(r.devices[cams[k].id], cams[k])
        {
          BootstrapReflectsLastEntry(devs, cams, k);
          assert cams[k].id in Ids(cams);
        }
      }
      r
  }

  // ---------------------------------------------------------------------
  // Settings patches and write-back
  // ---------------------------------------------------------------------

  /** The infrared-mode aliases accepted from callers and the NVR's names
      for them; every other mode is sent as given. */
  function NormaliseIrMode(mode: string): (r: string)
    ensures mode == "led_off" ==> r == "autoFilterOnly"
    ensures mode == "always_on" ==> r == "on"
    ensures mode == "always_off" ==> r == "off"
    ensures mode != "led_off" && mode != "always_on" && mode != "always_off" ==> r == mode
  {
    if mode == "led_off" then "autoFilterOnly"
    else if mode == "always_on" then "on"
    else if mode == "always_off" then "off"
    else mode
  }

  /** Normalising an already normalised mode changes nothing. */
  lemma NormaliseIrModeIdempotent(mode: string)
    ensures NormaliseIrMode(NormaliseIrMode(mode)) == NormaliseIrMode(mode)
  {
  }

  /** The body of the infrared patch. */
  datatype IspPatch = IspPatch(irLedMode: string, irLedLevel: int)

  /** The body of the recording-mode patch. */
  datatype RecordingPatch = RecordingPatch(
    mode: string,
    prePaddingSecs: int,
    postPaddingSecs: int,
    minMotionEventTrigger: int,
    enablePirTimelapse: bool)

  /** A settings patch: the body sent to the NVR, and the mirror after the
      reply (or the exception raised instead). */
  datatype Patched<P> = Patched(sent: P, result: Result<Devices>)

  const IrLedLevel := 255
  const PaddingSecs := 2
  const MinMotionEventTrigger := 1000

  /** The infrared patch and its write-back. The patch always carries the
      normalised mode at full LED level. A reply other than 200 raises
      NvrError; a 200 reply rewrites only the camera's infrared mode, to the
      mode the patch carried; a camera id the mirror does not hold raises the
      lookup failure after the patch. */
  function SetCameraIr(devs: Devices, id: string, mode: string, status: int): (r: Patched<IspPatch>)
    ensures r.sent.irLedMode == NormaliseIrMode(mode) && r.sent.irLedLevel == IrLedLevel
    ensures status != StatusOk ==> r.result == Failure(NvrError)
    ensures status == StatusOk && id !in devs ==> r.result == Failure(MissingCamera(id))
    ensures r.result.Success? <==> status == StatusOk && id in devs
    ensures r.result.Success? ==>
              && r.result.value.Keys == devs.Keys
              && r.result.value[id].irMode == r.sent.irLedMode
              && r.result.value[id].(irMode := devs[id].irMode) == devs[id]
              && forall other :: other in devs && other != id ==> r.result.value[other] == devs[other]
  {
    var patch := IspPatch(NormaliseIrMode(mode), IrLedLevel);
    if status != StatusOk then Patched(patch, Failure(NvrError))
    else if id !in devs then Patched(patch, Failure(MissingCamera(id)))
    else Patched(patch, Success(devs[id := devs[id].(irMode := patch.irLedMode)]))
  }

  /** The recording-mode patch and its write-back: the patch carries the mode
      as given, two seconds of padding on either side, a minimum motion
      trigger of 1000 and no PIR timelapse; the write-back is as for the
      infrared patch, with the mode stored exactly as sent. */
  function SetCameraRecording(devs: Devices, id: string, mode: string, status: int): (r: Patched<RecordingPatch>)
    ensures r.sent.mode == mode
    ensures r.sent.prePaddingSecs == PaddingSecs && r.sent.postPaddingSecs == PaddingSecs
    ensures r.sent.minMotionEventTrigger == MinMotionEventTrigger && !r.sent.enablePirTimelapse
    ensures status != StatusOk ==> r.result == Failure(NvrError)
    ensures status == StatusOk && id !in devs ==> r.result == Failure(MissingCamera(id))
    ensures r.result.Success? <==> status == StatusOk && id in devs
    ensures r.result.Success? ==>
              && r.result.value.Keys == devs.Keys
              && r.result.value[id].recordingMode == r.sent.mode
              && r.result.value[id].(recordingMode := devs[id].recordingMode) == devs[id]
              && forall other :: other in devs && other != id ==> r.result.value[other] == devs[other]
  {
    var patch := RecordingPatch(mode, PaddingSecs, PaddingSecs, MinMotionEventTrigger, false);
    if status != StatusOk then Patched(patch, Failure(NvrError))
    else if id !in devs then Patched(patch, Failure(MissingCamera(id)))
    else Patched(patch, Success(devs[id := devs[id].(recordingMode := patch.mode)]))
  }

  /** A worked update: camera "c1" listed with recording mode "motion", then
      an open motion event of score 60 against a minimum score of 50, turns
      motion on with score 60 and leaves the recording mode at "motion". */
  lemma MotionScenario(cam: RawCamera, start: int)
    requires cam.id == "c1" && cam.recordingMode == "motion"
    ensures var ev := RawEvent("c1", Some(start), None, 60, None);
            var r := Update(map[], StatusOk, [cam], StatusOk, [ev], 50);
            && r.outcome == Pass
            && r.devices["c1"].motionOn
            && r.devices["c1"].motionScore == 60
            && r.devices["c1"].recordingMode == "motion"
  {
    var ev := RawEvent("c1", Some(start), None, 60, None);
    var merged := MergeBootstrap(map[], [cam]);
    assert [cam][..0] == [];
    assert merged == map["c1" := NewCamera(cam)];
    assert [ev][..0] == [];
  }
}

=== FILE: session.dfy ===
/** The authenticator of the server wrapper: platform-flavour detection,
    login, and the lazy liveness check of the stored credential.

    A session is an immutable record; each operation takes the NVR's answers
    to the requests it would issue as parameters and returns the new session,
    the outcome, and the list of requests it actually issued. */
module Session {
  import opened Types
  import opened Transport

  /** The raw value of the TOKEN cookie (a JWT on the modern flavour). */
  type Token = string

  /** What decoding the TOKEN cookie says at the moment of the query, with
      expiry checked and the signature not verified. The decoder is a library
      call that reads the clock, so the model takes it as an oracle. */
  datatype Verdict = Valid | Expired | Malformed

  /** The headers attached to every later request: none yet, the CSRF token
      of the modern flavour, or the bearer authorisation of the legacy one. */
  datatype Headers =
    | NoHeaders
    | CsrfHeader(csrf: Option<string>)
    | AuthorizationHeader(value: string)

  /** `isUnifiOs` is None until a probe answered 200: Some(true) is the
      modern gateway-proxied flavour, Some(false) the legacy one.
      `tokenCookie` is the TOKEN entry of the cookie jar. */
  datatype Session = Session(
    isUnifiOs: Option<bool>,
    apiPath: string,
    headers: Headers,
    authenticated: bool,
    tokenCookie: Option<Token>)

  /** A request the authenticator issues: the unauthenticated flavour probe of
      the base URL, or the credential post to a login path. */
  datatype Call = Probe | Login(path: string)

  datatype Step = Step(session: Session, outcome: Outcome, calls: seq<Call>)

  const LegacyApiPath := "api"
  const UnifiOsApiPath := "proxy/protect/api"
  const LegacyLoginPath := "/api/auth"
  const UnifiOsLoginPath := "/api/auth/login"
  const BearerPrefix := "Bearer "
  /** How Python renders a missing header value inside an f-string. */
  const PythonNone := "None"

  /** A freshly constructed wrapper: flavour unknown, legacy API path, not
      authenticated, empty cookie jar. */
  const Fresh := Session(None, LegacyApiPath, NoHeaders, false, None)

  predicate IsUnifiOs(s: Session) {
    s.isUnifiOs == Some(true)
  }

  /** The cookie jar keeps the TOKEN cookie an answered exchange sets. */
  function Absorb(s: Session, ex: Exchange): (r: Session)
    ensures r.(tokenCookie := s.tokenCookie) == s
    ensures ex.Answered? && ex.reply.tokenCookie.Some? ==> r.tokenCookie == ex.reply.tokenCookie
    ensures !(ex.Answered? && ex.reply.tokenCookie.Some?) ==> r == s
  {
    if ex.Answered? && ex.reply.tokenCookie.Some? then s.(tokenCookie := ex.reply.tokenCookie) else s
  }

  function Rendered(v: Option<string>): string {
    match v
    case Some(text) => text
    case None => PythonNone
  }

  /** Flavour detection. Once a probe has answered 200 the flavour is cached
      and the call issues nothing. Otherwise it probes the base URL: a 200
      answer carrying an x-csrf-token header selects the modern flavour (the
      proxied API path and the CSRF header), a 200 answer without it the
      legacy one, any other answer that the request helper lets through leaves
      the flavour undetected, and a helper exception propagates. */
  function CheckUnifiOs(s: Session, probe: Exchange): (r: Step)
    ensures s.isUnifiOs.Some? ==> r == Step(s, Pass, [])
    ensures s.isUnifiOs.None? ==> r.calls == [Probe]
    ensures r.session.isUnifiOs.Some? <==>
              s.isUnifiOs.Some? || (probe.Answered? && probe.reply.status == StatusOk)
    ensures s.isUnifiOs.None? ==>
              (IsUnifiOs(r.session) <==>
                 probe.Answered? && probe.reply.status == StatusOk && probe.reply.csrfToken.Some?)
    ensures s.isUnifiOs.None? && IsUnifiOs(r.session) ==>
              r.session.apiPath == UnifiOsApiPath && r.session.headers == CsrfHeader(probe.reply.csrfToken)
    ensures !IsUnifiOs(r.session) ==> r.session.apiPath == s.apiPath && r.session.headers == s.headers
    ensures r.outcome.Fail? <==> s.isUnifiOs.None? && Request(probe).Failure?
    ensures r.outcome.Fail? ==> r.outcome.error == Request(probe).error
    ensures r.session.authenticated == s.authenticated
  {
    if s.isUnifiOs.Some? then Step(s, Pass, [])
    else
      var s1 := Absorb(s, probe);
      match Request(probe)
      case Failure(e) => Step(s1, Fail(e), [Probe])
      case Success(reply) =>
        if reply.status != StatusOk then Step(s1, Pass, [Probe])
        else if reply.csrfToken.Some? then
          Step(s1.(isUnifiOs := Some(true), apiPath := UnifiOsApiPath, headers := CsrfHeader(reply.csrfToken)),
               Pass, [Probe])
        else Step(s1.(isUnifiOs := Some(false)), Pass, [Probe])
  }

  /** Login. Detects the flavour first (a failure there aborts before any
      credential is sent); on the modern flavour clears the cookie jar and
      posts to the modern login path, otherwise posts to the legacy one. A
      helper exception on the post propagates with the jar already cleared.
      On success the headers become the reply's CSRF token (modern) or
      "Bearer " followed by the reply's Authorization header (legacy), and the
      session is marked authenticated. */
  function Authenticate(s: Session, probe: Exchange, login: Exchange): (r: Step)
    ensures r.session.isUnifiOs == CheckUnifiOs(s, probe).session.isUnifiOs
    ensures r.session.apiPath == CheckUnifiOs(s, probe).session.apiPath
    ensures CheckUnifiOs(s, probe).outcome.Fail? ==> r == CheckUnifiOs(s, probe)
    ensures CheckUnifiOs(s, probe).outcome.Pass? ==>
              r.calls == CheckUnifiOs(s, probe).calls
                         + [Login(if IsUnifiOs(r.session) then UnifiOsLoginPath else LegacyLoginPath)]
    ensures r.outcome.Pass? <==> CheckUnifiOs(s, probe).outcome.Pass? && Request(login).Success?
    ensures r.outcome.Pass? ==> r.session.authenticated
    ensures r.outcome.Fail? ==> r.session.authenticated == s.authenticated
    ensures r.outcome.Pass? && IsUnifiOs(r.session) ==>
              r.session.tokenCookie == login.reply.tokenCookie
              && r.session.headers == CsrfHeader(login.reply.csrfToken)
    ensures r.outcome.Pass? && !IsUnifiOs(r.session) ==>
              r.session.headers == AuthorizationHeader(BearerPrefix + Rendered(login.reply.authorization))
    ensures CheckUnifiOs(s, probe).outcome.Pass? && IsUnifiOs(r.session) ==>
              r.session.tokenCookie == (if login.Answered? then login.reply.tokenCookie else None)
    ensures CheckUnifiOs(s, probe).outcome.Pass? && r.outcome.Fail? ==>
              r.session.headers == CheckUnifiOs(s, probe).session.headers
  {
    var checked := CheckUnifiOs(s, probe);
    if checked.outcome.Fail? then checked
    else
      var modern := IsUnifiOs(checked.session);
      var cleared := if modern then checked.session.(tokenCookie := None) else checked.session;
      var path := if modern then UnifiOsLoginPath else LegacyLoginPath;
      var posted := Absorb(cleared, login);
      var calls := checked.calls + [Login(path)];
      match Request(login)
      case Failure(e) => Step(posted, Fail(e), calls)
      case Success(reply) =>
        var headers :=
          if modern then CsrfHeader(reply.csrfToken)
          else AuthorizationHeader(BearerPrefix + Rendered(reply.authorization));
        Step(posted.(headers := headers, authenticated := true), Pass, calls)
  }

  /** The liveness query, answered without any request. On the modern
      flavour an authenticated session is live only while its TOKEN cookie is
      present and decodes as unexpired; a missing, expired or undecodable
      cookie answers false. On the legacy (or undetected) flavour the stored
      flag is the answer. */
  function IsAuthenticated(s: Session, decode: Token -> Verdict): (r: bool)
    ensures r ==> s.authenticated
    ensures !IsUnifiOs(s) ==> r == s.authenticated
    ensures IsUnifiOs(s) && s.tokenCookie.None? ==> !r
    ensures IsUnifiOs(s) && s.tokenCookie.Some? && decode(s.tokenCookie.value) != Valid ==> !r
    ensures IsUnifiOs(s) && s.authenticated && s.tokenCookie.Some? && decode(s.tokenCookie.value) == Valid ==> r
  {
    if s.authenticated && IsUnifiOs(s) then
      s.tokenCookie.Some? && decode(s.tokenCookie.value) == Valid
    else s.authenticated
  }

  /** Logs in only when the liveness query answers false. */
  function EnsureAuthenticated(s: Session, decode: Token -> Verdict, probe: Exchange, login: Exchange): (r: Step)
    ensures r.calls == [] <==> IsAuthenticated(s, decode)
    ensures IsAuthenticated(s, decode) ==> r.session == s && r.outcome == Pass
    ensures !IsAuthenticated(s, decode) ==> r == Authenticate(s, probe, login)
  {
    if IsAuthenticated(s, decode) then Step(s, Pass, []) else Authenticate(s, probe, login)
  }

  /** Flavour detection run once per element of `probes`, each call answered
      by the next element whenever it probes. */
  function CheckRepeatedly(s: Session, probes: seq<Exchange>): (r: (Session, seq<Call>))
    decreases |probes|
  {
    if probes == [] then (s, [])
    else
      var first := CheckUnifiOs(s, probes[0]);
      var rest := CheckRepeatedly(first.session, probes[1..]);
      (rest.0, first.calls + rest.1)
  }

  /** Once the flavour is known, no number of further checks probes again or
      changes the session. */
  lemma {:induction false} CheckRepeatedlyAfterDetection(s: Session, probes: seq<Exchange>)
    requires s.isUnifiOs.Some?
    ensures CheckRepeatedly(s, probes) == (s, [])
    decreases |probes|
  {
    if probes != [] {
      assert CheckUnifiOs(s, probes[0]) == Step(s, Pass, []);
      CheckRepeatedlyAfterDetection(s, probes[1..]);
      assert [] + CheckRepeatedly(s, probes[1..]).1 == [];
    }
  }

  /** The probe is issued at most once: if the first probe answers 200, any
      number of later checks issue no further probe. */
  lemma ProbesAtMostOnce(s: Session, probes: seq<Exchange>)
    requires s.isUnifiOs.None?
    requires |probes| > 0 && probes[0].Answered? && probes[0].reply.status == StatusOk
    ensures CheckRepeatedly(s, probes).1 == [Probe]
    ensures CheckRepeatedly(s, probes).0.isUnifiOs.Some?
  {
    var first := CheckUnifiOs(s, probes[0]);
    CheckRepeatedlyAfterDetection(first.session, probes[1..]);
  }

  /** A modern-flavour login whose reply sets no TOKEN cookie succeeds, but
      the liveness query right after it answers false whatever the decoder
      says, so the next EnsureAuthenticated logs in again. */
  lemma ModernLoginWithoutTokenCookie(decode: Token -> Verdict, csrf: string, probe2: Exchange, login2: Exchange)
    ensures var probe := Answered(Reply(StatusOk, Some(csrf), None, None));
            var login := Answered(Reply(StatusOk, Some(csrf), None, None));
            var r := EnsureAuthenticated(Fresh, decode, probe, login);
            && r.outcome == Pass
            && r.calls == [Probe, Login(UnifiOsLoginPath)]
            && IsUnifiOs(r.session)
            && !IsAuthenticated(r.session, decode)
            && EnsureAuthenticated(r.session, decode, probe2, login2).calls == [Login(UnifiOsLoginPath)]
  {
  }

  /** A legacy session that has logged in stays live for good: the decoder is
      never consulted and nothing is requested. */
  lemma LegacySessionStaysAuthenticated(s: Session, decode: Token -> Verdict, probe: Exchange, login: Exchange)
    requires s.isUnifiOs == Some(false) && s.authenticated
    ensures EnsureAuthenticated(s, decode, probe, login) == Step(s, Pass, [])
  {
  }

  /** An expired or malformed TOKEN cookie on a detected modern session makes
      EnsureAuthenticated log in again without re-probing; a successful login
      stores the reply's cookie. */
  lemma StaleTokenLogsInAgain(s: Session, decode: Token -> Verdict, probe: Exchange, login: Exchange)
    requires IsUnifiOs(s) && s.authenticated
    requires s.tokenCookie.Some? && decode(s.tokenCookie.value) != Valid
    ensures EnsureAuthenticated(s, decode, probe, login).calls == [Login(UnifiOsLoginPath)]
    ensures Request(login).Success? ==>
              EnsureAuthenticated(s, decode, probe, login).session.tokenCookie == login.reply.tokenCookie
  {
  }
}

=== FILE: transport.dfy ===
/** The request helper of the server wrapper: one HTTP exchange, translated
    into either the raw reply or one of the wrapper's exceptions. */
module Transport {
  import opened Types

  /** What the NVR answered: the status code, the two response headers the
      authenticator reads, and the TOKEN cookie the reply may set. */
  datatype Reply = Reply(
    status: int,
    csrfToken: Option<string>,
    authorization: Option<string>,
    tokenCookie: Option<string>)

  /** One exchange with the NVR: either an answer, or the HTTP client raised
      one of its own ClientError exceptions before any answer arrived. */
  datatype Exchange = Answered(reply: Reply) | ClientFailure

  const StatusUnauthorized := 401
  const StatusForbidden := 403
  const StatusNotFound := 404

  predicate IsAuthFailure(status: int) {
    status == StatusUnauthorized || status == StatusForbidden
  }

  /** The request helper: 401 and 403 raise NotAuthorized, 404 and a
      ClientError of the HTTP client raise NvrError, and any other answer,
      whatever its status, is handed back untouched for the caller to
      interpret. */
  function Request(ex: Exchange): (r: Result<Reply>)
    ensures r.Success? <==> ex.Answered? && !IsAuthFailure(ex.reply.status) && ex.reply.status != StatusNotFound
    ensures r.Success? ==> r.value == ex.reply
    ensures r == Failure(NotAuthorized) <==> ex.Answered? && IsAuthFailure(ex.reply.status)
    ensures r == Failure(NvrError) <==> ex.ClientFailure? || ex.reply.status == StatusNotFound
  {
    match ex
    case ClientFailure => Failure(NvrError)
    case Answered(reply) =>
      if IsAuthFailure(reply.status) then Failure(NotAuthorized)
      else if reply.status == StatusNotFound then Failure(NvrError)
      else Success(reply)
  }
}

=== FILE: types.dfy ===
/** Shared value types of the UniFi Protect model: optional values, the
    exception classes the server wrapper raises, and success/failure results. */
module Types {

  datatype Option<+T> = None | Some(value: T)

  /** The failures the server wrapper surfaces to its callers. `NotAuthorized`
      and `NvrError` are the wrapper's own exception classes; `MissingCamera`
      is the lookup failure raised when a camera id is not in the mirror. */
  datatype Error =
    | NotAuthorized
    | NvrError
    | MissingCamera(id: string)

  /** A computed value, or the exception that replaced it. */
  datatype Result<+T> = Success(value: T) | Failure(error: Error)

  /** The outcome of an operation that is run for its effect only. */
  datatype Outcome = Pass | Fail(error: Error)

  /** The HTTP status every fetch and patch of the wrapper treats as success. */
  const StatusOk := 200
}
